=== FILE: README.md ===
# HP4194A acquisition script — a Dafny model

`hp4194a.py` drives an HP4194A impedance analyzer through a GPIB-to-serial
bridge. It sends a fixed list of configuration commands and triggers one
sweep. It then serial-polls the status byte until bit 0 ("sweep in
progress") clears, reads channels A and B, and saves them only when both
have the configured number of points. This project models the decision and
string logic of that script as pure Dafny functions, with the serial port
abstracted away:

- `Decimal` (decimal.dfy) is Python's decimal rendering of an `int`, as the
  `'%d'` and f-string commands use it. It comes with the matching parser,
  and the two are proved to be inverses.
- `Commands` (commands.dfy) is the command sequencer of lines 58-84. The
  configuration fills a fixed list of mnemonics (`Op`). The rendered list
  decodes back to the configuration, so the list determines it and is
  determined by it. Each of the 22 written lines is stated as the script
  writes it, text and value, for every configuration.
- `Poller` (poller.dfy) is the poll loop of lines 86-101. It runs over a finite
  list of abstracted answers (`Empty`, `Int(n)`, `Garbage`) and ends in
  `Done(k)`, `Aborted(k)` or `StillPolling`. `PollLoop` is the loop as the
  script writes it, with `break`. It is proved to agree with the recursive
  definition `Poll`.
- `Acquisition` (acquisition.dfy) covers lines 103-130, the length check and
  the whole run. A run yields the commands written to the port, the poll
  outcome and the record handed to the file writer.
- `Filenames` (filenames.dfy) covers `default_filename` on a given timestamp
  string, the argument/prompt/default choice, the `.mat` normalisation, and
  the stem and base name shown in the save comment.
- `Wrappers` (wrappers.dfy) holds `Option`.

Channel samples are a type parameter `V`: the model never looks at their
values, only at how many there are. The status byte is a non-negative
integer, and its bit 0 is `n % 2`, which equals `n & 0x01` for `n >= 0`.

## Model

| member | source | states |
|---|---|---|
| Decimal.NatToString | hp4194a.py:60 | a non-negative integer renders as a non-empty digit string without a superfluous leading zero, a single digit exactly below 10 |
| Decimal.IntToString | hp4194a.py:69-79 | an integer renders with a leading minus exactly when it is negative, followed by the canonical digits of its magnitude |
| Decimal.ParseInt | hp4194a.py:69-79 | not script behaviour: the script never reads these values back. It is the reader paired with `IntToString` for the round trip, and it accepts exactly an optional minus followed by at least one digit |
| Decimal.NatToStringOfParseNat | hp4194a.py:60 | every canonical digit string is the rendering of the number it denotes |
| Decimal.IntRoundTrip | hp4194a.py:69-79 | reading a rendered integer gives the integer back |
| Decimal.IntToStringInjective | hp4194a.py:69-79 | two integers render alike only when they are equal, so no value written to the instrument is ambiguous |
| Commands.Text | hp4194a.py:58-84 | every mnemonic text is non-empty, and it ends with the `=` or space that separates a value exactly when the mnemonic takes one |
| Commands.Render | hp4194a.py:58-84 | a command starts with its mnemonic, and a fixed command is written as its mnemonic alone |
| Commands.RenderValue | hp4194a.py:60-79 | a parameter is its mnemonic followed by `str(value)`: a minus exactly for a negative value, then canonical digits without leading zeros, which read back as the value |
| Commands.DecodeRendered | hp4194a.py:58-84 | decoding rendered commands line by line gives back each command's value |
| Commands.Setting | hp4194a.py:60-79 | a mnemonic carries a configured value exactly when it is a parameter: the address, sweep range, display ranges, points, averages and bias |
| Commands.SetupProgram | hp4194a.py:58-84 | for every configuration the setup list has the same 22 mnemonics in the same order, with a value exactly on the parameter commands |
| Commands.DecodeSetupCommands | hp4194a.py:58-84 | the configuration can be read back from the command list it produces |
| Commands.SetupCommandsDetermineConfig | hp4194a.py:58-84 | two configurations give the same command list if and only if they are equal |
| Commands.SetupCommands | hp4194a.py:58-84 | the i-th written setup command starts with the i-th fixed mnemonic, whatever the configuration |
| Commands.SetupOrder | hp4194a.py:58-84 | the five `++` controller mnemonics come first, then the thirteen from `IMP2` to `BIAS=`, then the four sweep mnemonics; `START=` precedes `STOP=` and `NOP=` precedes `NOA=`, each once |
| Commands.SetupLine | hp4194a.py:58-84 | the i-th written setup line is the i-th mnemonic together with its configured value, if it takes one |
| Commands.ControllerLinesWritten | hp4194a.py:58-64 | for every configuration the lines around the address are `++mode 1`, `++auto 1`, then `++clr` and `++ver`, at positions 0, 1, 3 and 4 |
| Commands.AddrLine | hp4194a.py:60 | line 2 is `++addr ` followed by the GPIB address in decimal |
| Commands.FixedMeasurementLines | hp4194a.py:67-78 | lines 5 and 6 are `IMP2` and `ITM2`, before the parameters; lines 15 and 16 are `SHT1` and `OPN1`, before the bias |
| Commands.StartLine | hp4194a.py:69 | line 7 is `START=` followed by the start frequency in decimal |
| Commands.StopLine | hp4194a.py:70 | line 8 is `STOP=` followed by the stop frequency in decimal |
| Commands.AMinLine | hp4194a.py:71 | line 9 is `AMIN=` followed by the lower bound of display range A |
| Commands.AMaxLine | hp4194a.py:72 | line 10 is `AMAX=` followed by the upper bound of display range A |
| Commands.BMinLine | hp4194a.py:73 | line 11 is `BMIN=` followed by the lower bound of display range B |
| Commands.BMaxLine | hp4194a.py:74 | line 12 is `BMAX=` followed by the upper bound of display range B |
| Commands.NopLine | hp4194a.py:75 | line 13 is `NOP=` followed by the number of points |
| Commands.NoaLine | hp4194a.py:76 | line 14 is `NOA=` followed by the number of averages |
| Commands.BiasLine | hp4194a.py:79 | line 17 is `BIAS=` followed by the bias voltage |
| Commands.SweepLinesWritten | hp4194a.py:81-84 | the last four lines are exactly `RQS2`, `SWM2`, `SWTRG` and `CMT"Acquiring sweep"`, in that order, for every configuration |
| Poller.Classify | hp4194a.py:91-95 | an empty answer is skipped; a digit string is a status byte, namely the number it denotes; anything else is unparseable |
| Poller.ClassifyStatus | hp4194a.py:94 | a status byte written in decimal is read as that byte |
| Poller.Poll | hp4194a.py:90-101 | the loop over a list of answers is done only at a status byte with bit 0 clear and aborted only at an unparseable answer, both within the list |
| Poller.PollFrom | hp4194a.py:90-101 | the loop ends only at a status byte with bit 0 clear (done) or at an unparseable answer (aborted), never before its starting answer |
| Poller.Consumed | hp4194a.py:53-56 | one `++spoll` is sent per answer read: every answer up to and including the one that ended the loop, or all available answers while it runs |
| Poller.PollLoop | hp4194a.py:86-101 | the `while`/`break` loop finishes exactly when `Poll` says done, and reads exactly the answers up to the one that ended it |
| Poller.PollDoneIff | hp4194a.py:90-101 | the loop is done at answer k if and only if answer k has bit 0 clear and every earlier answer was empty or had bit 0 set |
| Poller.PollAbortedIff | hp4194a.py:93-98 | the loop aborts at answer k if and only if answer k is unparseable and every earlier answer kept it polling |
| Poller.PollStillIff | hp4194a.py:90-101 | the loop has not ended if and only if every answer was empty or had bit 0 set |
| Poller.FirstStop | hp4194a.py:90-101 | the loop ends at the first answer that does not keep it polling |
| Poller.PollAppend | hp4194a.py:90-101 | answers after the one that ended the loop are never looked at; while the loop runs, later answers decide with their positions shifted |
| Poller.GarbageAborts | hp4194a.py:93-98 | an unparseable answer after answers that kept the loop polling aborts it there, whatever follows |
| Poller.EmptyIsSkipped | hp4194a.py:91-92 | inserting an empty answer anywhere leaves the outcome unchanged except for moving it one answer later |
| Poller.StatusExamples | hp4194a.py:90-101 | status 3 keeps polling and 2 ends the loop done; `abc` aborts at once |
| Acquisition.CheckLengths | hp4194a.py:112-118 | saving is decided if and only if both channels have the configured number of points; each mismatching channel is reported, A before B |
| Acquisition.FinishRun | hp4194a.py:103-130 | bias off is always written first; `A?` and `B?` only after a finished sweep; the record and the save comment only when both lengths match, with the record holding the configured values and both read-outs |
| Acquisition.Run | hp4194a.py:58-101 | a run starts with the setup commands and its outcome is the poll loop's |
| Acquisition.RunGating | hp4194a.py:86-119 | after the setup come one `++spoll` per answer read, then `DCOFF` exactly when the loop ended, then the channel queries exactly when the sweep finished; a record exists exactly when the sweep finished and both lengths match |
| Acquisition.GarbageEndsRun | hp4194a.py:93-103 | an unparseable answer ends the run with bias off as its last command, no read-out and no record |
| Acquisition.SavedRecord | hp4194a.py:119-129 | a finished sweep with matching lengths saves exactly the configured bias, averages, frequency bounds and both read-outs, and ends with the save comment |
| Acquisition.PointCountScenarios | hp4194a.py:112-118 | 201 points on both channels save; 200 points on channel A do not, and channel A alone is reported |
| Filenames.NormaliseExtension | hp4194a.py:183-184 | the result ends with `.mat` and begins with the name; it equals the name exactly when the name already ends with `.mat`, and is otherwise four characters longer |
| Filenames.NormaliseIdempotent | hp4194a.py:183-184 | normalising twice is the same as normalising once |
| Filenames.Stem | hp4194a.py:129 | `filename[:-4]`: the name less its last four characters, or empty when shorter |
| Filenames.StemOfNormalised | hp4194a.py:129 | the stem of a normalised name plus `.mat` is the name again; for a name typed without `.mat` the stem is the name as typed |
| Filenames.SavedCommentShows | hp4194a.py:128-129 | the comment is `CMT"Saved as `, then the part of the file name less its last four characters after its last `/` (the whole of it when it has none), then a closing quote |
| Filenames.Basename | hp4194a.py:129 | the base name, as `posixpath` cuts it, holds no `/` and is no longer than the path |
| Filenames.BasenameIsLastComponent | hp4194a.py:129 | the base name ends the path and is preceded by a `/` unless it is the whole path |
| Filenames.RemoveChar | hp4194a.py:170 | removing a character leaves no occurrence of it and never lengthens the text |
| Filenames.RemoveCharKeeps | hp4194a.py:170 | every other character occurs in the result exactly when it occurs in the text |
| Filenames.BeforeFirst | hp4194a.py:170 | the part before the first separator is a prefix without the separator, followed in the text by the separator when shorter |
| Filenames.DefaultFilename | hp4194a.py:164-170 | the default name contains no `-`, `:` or `.` |
| Filenames.DefaultFilenameIsDatePart | hp4194a.py:169-170 | the default name is the part of the timestamp before its first `.`, with `-` and `:` removed |
| Filenames.DefaultFilenameFormat | hp4194a.py:164-170 | for a timestamp in `isoformat()` form, with or without microseconds, the default name is the 15-character `YYYYMMDDTHHMMSS` |
| Filenames.ChooseFilename | hp4194a.py:178-184 | the chosen file name always ends with `.mat` |
| Filenames.ArgumentChoice | hp4194a.py:178-184 | a non-empty command-line argument is the file name, with `.mat` added when missing, whatever is typed and whatever the time |
| Filenames.TypedChoice | hp4194a.py:178-184 | with no argument or an empty one, a non-empty typed answer is the file name, with `.mat` added when missing, whatever the time |
| Filenames.DefaultChoice | hp4194a.py:174-184 | with no argument or an empty one, and an empty answer, the file is the default name plus one `.mat`, and its stem is the default name |
| Filenames.DefaultComment | hp4194a.py:129 | for a timestamp in `isoformat()` form, with no argument or an empty one, the save comment after the default choice shows exactly the default name |

## Left out

- Serial port I/O is not modelled. This covers `serial.Serial`, the CR LF
  terminator and UTF-8 encoding added by `write`, `read`, `readline`,
  `reset_input_buffer`, and the 0.25 s sleep in `serial_poll`. Poll answers
  and channel read-outs are inputs to the run.
- The `++ver` answer and the buffer-clearing reads (lines 62-65 and 88-89)
  are not modelled: their results are printed or discarded.
- `read_data` and `to_tuple` are not modelled, because they parse floats.
  Channel read-outs are sequences of an opaque sample type. Display ranges
  and frequencies are integer pairs and integers, as the configuration
  already holds them. A `display_range` with fewer than two values, which
  the script would reject with an `IndexError`, cannot be expressed.
- Poller.Classify: ASCII digit strings only, of any length. The answer is
  the bytes from `readline().strip()` (line 56). On those bytes `int()` also
  accepts a leading sign and underscores between digits. It reads ASCII
  digits only. Negative status bytes are not modelled either, since a status
  byte is 0 to 255. On interpreters with the integer-string conversion limit
  (3.11, and 3.7.14, 3.8.14, 3.9.14 and 3.10.7 onward), `int()` also refuses
  a numeral of more than 4300 digits. The script then breaks out of the loop (lines
  95-98), but the model reads such an answer as a status byte. The limit
  depends on the interpreter version and its settings, so the model does
  not fix one.
- Filenames.Basename: POSIX paths only, as `posixpath.basename` cuts them at
  `/`. On Windows, `os.path` is `ntpath`, which also cuts at `\` and after a
  drive such as `C:`. There the save comment of line 129 can show less of
  the name than the model says.
- `configparser`, `argparse`, the `input()` prompt, `os.path.exists` with
  the overwrite confirmation, and `datetime.now()` are not modelled, being
  environment and I/O. The command-line argument, the typed answer and the
  timestamp string are parameters.
- `scipy.io.savemat` and the file format are not modelled. The round trip
  of a saved file cannot be stated, so the model stops at the record handed
  to the writer. That record also leaves out the `time` field, which comes
  from the clock.
- `plotyy` and the matplotlib calls are not modelled: they are float
  plotting with no effect on the run's decisions.
- The text of the printed messages is not modelled. This includes the two
  length-mismatch messages, whose `%d` is never filled in.
  `CheckLengths.mismatched` records which channels would be reported.
- The `debug` flag and its binary print of the status byte are not
  modelled: they are output only.
- The script's poll loop has no bound. The model runs over a finite list of
  answers, and `StillPolling` (with the run stopping after the polls) stands
  for a loop that has not ended yet.

=== FILE: acquisition.dfy ===
/**
  One acquisition run of the script's `main` (hp4194a.py lines 58-130), with
  the serial port abstracted away: the configuration, the output file name,
  the serial-poll answers and the two channel read-outs are inputs, and the
  run yields the commands written to the port, the poll outcome and the
  record handed to the file writer, if any.
 */
module Acquisition {
  import opened Wrappers
  import opened Commands
  import opened Poller
  import opened Filenames

  datatype Channel = ChannelA | ChannelB

  /** The length check before saving: whether to save, and the channels
      whose read-out has the wrong number of points, in the order reported. */
  datatype SaveCheck = SaveCheck(save: bool, mismatched: seq<Channel>)

  function CheckLengths(numberOfPoints: int, lengthA: nat, lengthB: nat): (c: SaveCheck)
    ensures c.save <==> lengthA == numberOfPoints && lengthB == numberOfPoints
    ensures c.save <==> c.mismatched == []
    ensures ChannelA in c.mismatched <==> lengthA != numberOfPoints
    ensures ChannelB in c.mismatched <==> lengthB != numberOfPoints
    ensures |c.mismatched| <= 2 && (|c.mismatched| == 2 ==> c.mismatched == [ChannelA, ChannelB])
  {
    var reportA := if lengthA != numberOfPoints then [ChannelA] else [];
    var reportB := if lengthB != numberOfPoints then [ChannelB] else [];
    var mismatched := reportA + reportB;
    SaveCheck(mismatched == [], mismatched)
  }

  /** What the file writer receives (the timestamp is not modelled). */
  datatype RunRecord<V> = RunRecord(
    biasVoltage: int,
    numberOfAverages: int,
    frequency: (int, int),
    channelA: seq<V>,
    channelB: seq<V>)

  /** The commands written after the poll loop and the record saved, if any. */
  datatype AfterSweep<V> = AfterSweep(writes: seq<string>, record: Option<RunRecord<V>>)

  const BiasOff: string := "DCOFF"
  const QueryA: string := "A?"
  const QueryB: string := "B?"
  const SerialPoll: string := "++spoll"

  /** Lines 103-130: bias off whatever happened; the channels are read only
      after a finished sweep; the record is saved, and the save comment
      written, only when both read-outs have the configured number of points. */
  function FinishRun<V>(cfg: Config, filename: string, sweepFinished: bool, a: seq<V>, b: seq<V>): (f: AfterSweep<V>)
    ensures f.record.Some? <==> sweepFinished && |a| == cfg.numberOfPoints && |b| == cfg.numberOfPoints
    ensures |f.writes| == 1 + (if sweepFinished then 2 else 0) + (if f.record.Some? then 1 else 0)
    ensures f.writes[0] == BiasOff
    ensures sweepFinished ==> f.writes[1] == QueryA && f.writes[2] == QueryB
    ensures f.record.Some? ==> f.writes[3] == SavedComment(filename)
    ensures f.record.Some? ==>
      && f.record.value.biasVoltage == cfg.biasVoltage
      && f.record.value.numberOfAverages == cfg.numberOfAverages
      && f.record.value.frequency == (cfg.startFrequency, cfg.stopFrequency)
      && f.record.value.channelA == a && f.record.value.channelB == b
  {
    if !sweepFinished then AfterSweep([BiasOff], None)
    else
      if CheckLengths(cfg.numberOfPoints, |a|, |b|).save then
        var record := RunRecord(cfg.biasVoltage, cfg.numberOfAverages, (cfg.startFrequency, cfg.stopFrequency), a, b);
        AfterSweep([BiasOff, QueryA, QueryB, SavedComment(filename)], Some(record))
      else AfterSweep([BiasOff, QueryA, QueryB], None)
  }

  function Repeat(s: string, n: nat): (r: seq<string>)
    ensures |r| == n && forall i :: 0 <= i < n ==> r[i] == s
  {
    seq(n, _ => s)
  }

  datatype RunResult<V> = RunResult(writes: seq<string>, outcome: PollOutcome, record: Option<RunRecord<V>>)

  /** The whole run: the setup commands, one `++spoll` per answer the loop
      reads, then, once the loop has ended, the commands after it. While the
      answers keep the loop polling the run has not got past the loop. */
  function Run<V>(cfg: Config, filename: string, answers: seq<PollResponse>, a: seq<V>, b: seq<V>): (r: RunResult<V>)
    ensures r.outcome == Poll(answers)
    ensures |r.writes| >= SetupLength && r.writes[..SetupLength] == SetupCommands(cfg)
  {
    var outcome := Poll(answers);
    var polls := Repeat(SerialPoll, Consumed(outcome, |answers|));
    var setup := SetupCommands(cfg);
    if outcome.StillPolling? then RunResult(setup + polls, outcome, None)
    else
      var after := FinishRun(cfg, filename, outcome.Done?, a, b);
      RunResult(setup + polls + after.writes, outcome, after.record)
  }

  /** The run's writes after the setup: one serial poll per answer read, then
      bias off as soon as the loop ends, then the channel queries only when
      the sweep finished; data is saved exactly when the sweep finished and
      both read-outs have the configured number of points. */
  lemma RunGating<V>(cfg: Config, filename: string, answers: seq<PollResponse>, a: seq<V>, b: seq<V>)
    ensures var r := Run(cfg, filename, answers, a, b);
      var n := Consumed(Poll(answers), |answers|);
      && (forall i :: SetupLength <= i < SetupLength + n ==> r.writes[i] == SerialPoll)
      && (Poll(answers).StillPolling? <==> |r.writes| == SetupLength + n)
      && (!Poll(answers).StillPolling? ==> r.writes[SetupLength + n] == BiasOff)
      && (Poll(answers).Done? <==> |r.writes| >= SetupLength + n + 3)
      && (Poll(answers).Done? ==> r.writes[SetupLength + n + 1 .. SetupLength + n + 3] == [QueryA, QueryB])
      && (r.record.Some? <==> Poll(answers).Done? && |a| == cfg.numberOfPoints && |b| == cfg.numberOfPoints)
  {
  }

  /** An unparseable answer after answers that kept the loop polling ends the
      run at once: bias off is the last command, nothing is read or saved, and
      the answers after it play no part. */
  lemma GarbageEndsRun<V>(cfg: Config, filename: string, before: seq<PollResponse>, after: seq<PollResponse>, a: seq<V>, b: seq<V>)
    requires forall j :: 0 <= j < |before| ==> KeepsPolling(before[j])
    ensures var r := Run(cfg, filename, before + [Garbage] + after, a, b);
      && r.outcome == Aborted(|before|)
      && r.writes == SetupCommands(cfg) + Repeat(SerialPoll, |before| + 1) + [BiasOff]
      && r.record.None?
  {
    PollStillIff(before);
    GarbageAborts(before, after);
  }

  /** A sweep that finishes with the right number of points hands the file
      writer exactly the configured values and both read-outs. */
  lemma SavedRecord<V>(cfg: Config, filename: string, answers: seq<PollResponse>, a: seq<V>, b: seq<V>)
    requires Poll(answers).Done?
    requires |a| == cfg.numberOfPoints && |b| == cfg.numberOfPoints
    ensures var r := Run(cfg, filename, answers, a, b);
      r.record == Some(RunRecord(cfg.biasVoltage, cfg.numberOfAverages, (cfg.startFrequency, cfg.stopFrequency), a, b))
      && r.writes[|r.writes| - 1] == SavedComment(filename)
  {
  }

  /** 201 points on each channel are saved; 200 points on channel A are not,
      and channel A alone is reported. */
  lemma PointCountScenarios()
    ensures CheckLengths(201, 201, 201) == SaveCheck(true, [])
    ensures CheckLengths(201, 200, 201) == SaveCheck(false, [ChannelA])
  {
  }
}

=== FILE: commands.dfy ===
/**
  The command sequencer: the fixed, ordered list of ASCII commands that
  configures the GPIB controller bridge and the HP4194A before a sweep
  (hp4194a.py lines 58-84). The list depends on the sweep configuration only,
  and `DecodeSetup` recovers that configuration from it.
 */
module Commands {
  import opened Wrappers
  import opened Decimal

  /** A display range `(min, max)` for one channel, as read by `to_tuple`. */
  datatype Range = Range(lo: int, hi: int)

  /** The integer settings read from the `setup` and `sweep` sections. */
  datatype Config = Config(
    gpibAddress: int,
    startFrequency: int,
    stopFrequency: int,
    numberOfPoints: int,
    numberOfAverages: int,
    displayRangeA: Range,
    displayRangeB: Range,
    biasVoltage: int)

  /** The mnemonics the script writes, in the order of the setup list. */
  datatype Op =
    | Mode | Auto | Addr | Clear | Version
    | Imp2 | Itm2 | Start | Stop | AMin | AMax | BMin | BMax | Nop | Noa | Sht1 | Opn1 | Bias
    | Rqs2 | Swm2 | Trigger | Comment

  /** The text of a mnemonic; for a parameter, the text before its value,
      which ends with the `=` or space that separates the value. */
  function Text(op: Op): (t: string)
    ensures |t| > 0
    ensures TakesValue(op) <==> t[|t| - 1] == '=' || t[|t| - 1] == ' '
  {
    match op
    case Mode => "++mode 1"
    case Auto => "++auto 1"
    case Addr => "++addr "
    case Clear => "++clr"
    case Version => "++ver"
    case Imp2 => "IMP2"
    case Itm2 => "ITM2"
    case Start => "START="
    case Stop => "STOP="
    case AMin => "AMIN="
    case AMax => "AMAX="
    case BMin => "BMIN="
    case BMax => "BMAX="
    case Nop => "NOP="
    case Noa => "NOA="
    case Sht1 => "SHT1"
    case Opn1 => "OPN1"
    case Bias => "BIAS="
    case Rqs2 => "RQS2"
    case Swm2 => "SWM2"
    case Trigger => "SWTRG"
    case Comment => "CMT\"Acquiring sweep\""
  }

  /** The mnemonics that are followed by a decimal value. */
  predicate TakesValue(op: Op) {
    op in {Addr, Start, Stop, AMin, AMax, BMin, BMax, Nop, Noa, Bias}
  }

  /** One command line: a mnemonic and, for a parameter, its value. */
  datatype Command = Command(op: Op, arg: Option<int>)

  /** Every parameter carries a value and no other command does. */
  predicate WellFormed(p: seq<Command>) {
    forall i :: 0 <= i < |p| ==> (p[i].arg.Some? <==> TakesValue(p[i].op))
  }

  predicate StartsWith(s: string, prefix: string) {
    |prefix| <= |s| && s[..|prefix|] == prefix
  }

  /** The line written to the port, without its CR LF terminator. */
  function Render(c: Command): (s: string)
    ensures StartsWith(s, Text(c.op))
    ensures c.arg.None? ==> s == Text(c.op)
  {
    match c.arg
    case None => Text(c.op)
    case Some(value) =>
      var s := Text(c.op) + IntToString(value);
      assert s[..|Text(c.op)|] == Text(c.op);
      s
  }

  /** A parameter is written as its mnemonic followed by `str(value)`: a minus
      exactly for a negative value, then the canonical digits of the
      magnitude, which read back as the value. */
  lemma RenderValue(c: Command)
    requires c.arg.Some?
    ensures var s := Render(c);
      var v := s[|Text(c.op)|..];
      && |v| >= 1
      && (v[0] == '-' <==> c.arg.value < 0)
      && Canonical(if v[0] == '-' then v[1..] else v)
      && ParseInt(v) == c.arg
  {
    IntRoundTrip(c.arg.value);
    assert Render(c)[|Text(c.op)|..] == IntToString(c.arg.value);
  }

  function RenderAll(p: seq<Command>): (lines: seq<string>)
    ensures |lines| == |p|
    ensures forall i :: 0 <= i < |p| ==> lines[i] == Render(p[i])
  {
    seq(|p|, i requires 0 <= i < |p| => Render(p[i]))
  }

  function Ops(p: seq<Command>): (ops: seq<Op>)
    ensures |ops| == |p|
    ensures forall i :: 0 <= i < |p| ==> ops[i] == p[i].op
  {
    seq(|p|, i requires 0 <= i < |p| => p[i].op)
  }

  function Args(p: seq<Command>): (args: seq<Option<int>>)
    ensures |args| == |p|
    ensures forall i :: 0 <= i < |p| ==> args[i] == p[i].arg
  {
    seq(|p|, i requires 0 <= i < |p| => p[i].arg)
  }

  /** The value after `prefix`, when `line` is `prefix` followed by a decimal integer. */
  function ParseField(line: string, prefix: string): (r: Option<int>)
    ensures r.Some? ==> StartsWith(line, prefix)
  {
    if StartsWith(line, prefix) then ParseInt(line[|prefix|..]) else None
  }

  /** Reads one line expected to carry `op`: its value for a parameter, `None`
      for a fixed command; the outer `None` when the line does not fit. */
  function DecodeLine(line: string, op: Op): (r: Option<Option<int>>)
    ensures r.Some? ==> (r.value.Some? <==> TakesValue(op))
  {
    if TakesValue(op) then
      match ParseField(line, Text(op))
      case Some(v) => Some(Some(v))
      case None => None
    else if line == Text(op) then Some(None)
    else None
  }

  /** Reads the lines expected to carry `ops`, one line per mnemonic. */
  function DecodeLines(lines: seq<string>, ops: seq<Op>): (r: Option<seq<Option<int>>>)
    ensures r.Some? ==> |lines| == |ops| && |r.value| == |ops|
    ensures r.Some? ==> forall i :: 0 <= i < |ops| ==> (r.value[i].Some? <==> TakesValue(ops[i]))
  {
    if |lines| != |ops| then None
    else if ops == [] then Some([])
    else
      match (DecodeLine(lines[0], ops[0]), DecodeLines(lines[1..], ops[1..]))
      case (Some(a), Some(rest)) => Some([a] + rest)
      case _ => None
  }

  lemma ParseFieldOf(prefix: string, n: int)
    ensures ParseField(prefix + IntToString(n), prefix) == Some(n)
  {
    var cmd := prefix + IntToString(n);
    assert cmd[..|prefix|] == prefix;
    assert cmd[|prefix|..] == IntToString(n);
    IntRoundTrip(n);
  }

  /** Decoding rendered commands gives back their values, line by line. */
  lemma {:induction false} DecodeRendered(p: seq<Command>)
    requires WellFormed(p)
    ensures DecodeLines(RenderAll(p), Ops(p)) == Some(Args(p))
    decreases |p|
  {
    if p != [] {
      var c := p[0];
      DecodeRender(c);
      var lines, ops := RenderAll(p), Ops(p);
      assert lines[1..] == RenderAll(p[1..]);
      assert ops[1..] == Ops(p[1..]);
      DecodeRendered(p[1..]);
      DecodeLinesCons(lines, ops, c.arg, Args(p[1..]));
      ArgsCons(p);
    }
  }

  lemma ArgsCons(p: seq<Command>)
    requires |p| > 0
    ensures Args(p) == [p[0].arg] + Args(p[1..])
  {
    var whole, split := Args(p), [p[0].arg] + Args(p[1..]);
    forall i | 0 <= i < |whole|
      ensures whole[i] == split[i]
    {
      if i > 0 {
        assert split[i] == Args(p[1..])[i - 1];
      }
    }
  }

  /** Decoding one rendered command gives back its value. */
  lemma DecodeRender(c: Command)
    requires c.arg.Some? <==> TakesValue(c.op)
    ensures DecodeLine(Render(c), c.op) == Some(c.arg)
  {
    if c.arg.Some? {
      ParseFieldOf(Text(c.op), c.arg.value);
    }
  }

  /** `DecodeLines` succeeds on a non-empty list when its first line and the rest do. */
  lemma DecodeLinesCons(lines: seq<string>, ops: seq<Op>, a: Option<int>, rest: seq<Option<int>>)
    requires |lines| == |ops| > 0
    requires DecodeLine(lines[0], ops[0]) == Some(a)
    requires DecodeLines(lines[1..], ops[1..]) == Some(rest)
    ensures DecodeLines(lines, ops) == Some([a] + rest)
  {
  }

  /** The number of commands written before polling starts. */
  const SetupLength: nat := 22

  /** Index of the first measurement command and of the first sweep command. */
  const FirstMeasurement: nat := 5
  const FirstSweep: nat := 18

  /** The mnemonics of the setup list, which do not depend on the configuration:
      controller mode, read-after-write, instrument address, device clear and
      version query for the bridge; then R-X mode, medium integration time,
      sweep range, display ranges, points, averages, short and open
      compensation and DC bias for the analyzer; then service request enable,
      single sweep mode, trigger and the on-screen comment. */
  const SetupOps: seq<Op> := ControllerOps + MeasurementOps + SweepOps

  const ControllerOps: seq<Op> := [Mode, Auto, Addr, Clear, Version]
  const MeasurementOps: seq<Op> := [Imp2, Itm2, Start, Stop, AMin, AMax, BMin, BMax, Nop, Noa, Sht1, Opn1, Bias]
  const SweepOps: seq<Op> := [Rqs2, Swm2, Trigger, Comment]

  /** The configured value a mnemonic carries in the setup list, if any. */
  function Setting(cfg: Config, op: Op): (v: Option<int>)
    ensures v.Some? <==> TakesValue(op)
  {
    match op
    case Addr => Some(cfg.gpibAddress)
    case Start => Some(cfg.startFrequency)
    case Stop => Some(cfg.stopFrequency)
    case AMin => Some(cfg.displayRangeA.lo)
    case AMax => Some(cfg.displayRangeA.hi)
    case BMin => Some(cfg.displayRangeB.lo)
    case BMax => Some(cfg.displayRangeB.hi)
    case Nop => Some(cfg.numberOfPoints)
    case Noa => Some(cfg.numberOfAverages)
    case Bias => Some(cfg.biasVoltage)
    case _ => None
  }

  /** The setup list with the configured values filled in. */
  function SetupProgram(cfg: Config): (p: seq<Command>)
    ensures |p| == SetupLength
    ensures Ops(p) == SetupOps
    ensures WellFormed(p)
  {
    seq(SetupLength, i requires 0 <= i < SetupLength => Command(SetupOps[i], Setting(cfg, SetupOps[i])))
  }

  /** The setup commands as text, in the order they are written; the i-th
      starts with the i-th fixed mnemonic, whatever the configuration. */
  function SetupCommands(cfg: Config): (cmds: seq<string>)
    ensures |cmds| == SetupLength
    ensures forall i :: 0 <= i < SetupLength ==> StartsWith(cmds[i], Text(SetupOps[i]))
  {
    RenderAll(SetupProgram(cfg))
  }

  /** The positions of the parameters in the setup list. */
  lemma SetupParameters()
    ensures SetupOps[2] == Addr && SetupOps[7] == Start && SetupOps[8] == Stop
    ensures SetupOps[9] == AMin && SetupOps[10] == AMax && SetupOps[11] == BMin && SetupOps[12] == BMax
    ensures SetupOps[13] == Nop && SetupOps[14] == Noa && SetupOps[17] == Bias
  {
  }

  /** The configuration held by the values of the setup list's parameters. */
  function ConfigOf(v: seq<Option<int>>): Config
    requires |v| == SetupLength
    requires forall i :: 0 <= i < SetupLength ==> (v[i].Some? <==> TakesValue(SetupOps[i]))
  {
    SetupParameters();
    assert TakesValue(SetupOps[2]) && TakesValue(SetupOps[7]) && TakesValue(SetupOps[8]);
    assert TakesValue(SetupOps[9]) && TakesValue(SetupOps[10]) && TakesValue(SetupOps[11]) && TakesValue(SetupOps[12]);
    assert TakesValue(SetupOps[13]) && TakesValue(SetupOps[14]) && TakesValue(SetupOps[17]);
    Config(v[2].value, v[7].value, v[8].value, v[13].value, v[14].value,
           Range(v[9].value, v[10].value), Range(v[11].value, v[12].value), v[17].value)
  }

  /** Reads a configuration back from a command list; `None` unless every line
      has the mnemonic the setup list has at its position. */
  function DecodeSetup(cmds: seq<string>): (r: Option<Config>)
    ensures r.Some? ==> |cmds| == SetupLength
  {
    match DecodeLines(cmds, SetupOps)
    case None => None
    case Some(v) => Some(ConfigOf(v))
  }

  /** The configuration is read back from the values the setup list carries. */
  lemma ConfigOfSettings(cfg: Config)
    ensures var v := Args(SetupProgram(cfg));
      (forall i :: 0 <= i < SetupLength ==> (v[i].Some? <==> TakesValue(SetupOps[i]))) && ConfigOf(v) == cfg
  {
    var v := Args(SetupProgram(cfg));
    SetupParameters();
    assert v[2] == Setting(cfg, Addr) && v[7] == Setting(cfg, Start) && v[8] == Setting(cfg, Stop);
    assert v[9] == Setting(cfg, AMin) && v[10] == Setting(cfg, AMax);
    assert v[11] == Setting(cfg, BMin) && v[12] == Setting(cfg, BMax);
    assert v[13] == Setting(cfg, Nop) && v[14] == Setting(cfg, Noa) && v[17] == Setting(cfg, Bias);
  }

  /** The command list carries the whole configuration: decoding it gives the configuration back. */
  lemma DecodeSetupCommands(cfg: Config)
    ensures DecodeSetup(SetupCommands(cfg)) == Some(cfg)
  {
    DecodeRendered(SetupProgram(cfg));
    ConfigOfSettings(cfg);
  }

  /** Two configurations produce the same command list only when they are equal. */
  lemma SetupCommandsDetermineConfig(c1: Config, c2: Config)
    ensures SetupCommands(c1) == SetupCommands(c2) <==> c1 == c2
  {
    DecodeSetupCommands(c1);
    DecodeSetupCommands(c2);
  }

  /** The group of a mnemonic: 0 for the controller bridge, 1 for the
      measurement parameters, 2 for the sweep commands. */
  function Group(op: Op): nat {
    if op in {Mode, Auto, Addr, Clear, Version} then 0
    else if op in {Rqs2, Swm2, Trigger, Comment} then 2
    else 1
  }

  /** Controller setup comes first, then the measurement parameters from `IMP2`
      to `BIAS=`, then the sweep commands; `START=` comes before `STOP=` and
      `NOP=` before `NOA=`, each exactly once. */
  lemma SetupOrder()
    ensures forall i :: 0 <= i < SetupLength ==>
      Group(SetupOps[i]) == (if i < FirstMeasurement then 0 else if i < FirstSweep then 1 else 2)
    ensures forall i, j :: 0 <= i < j < SetupLength ==> Group(SetupOps[i]) <= Group(SetupOps[j])
    ensures SetupOps[FirstMeasurement] == Imp2 && SetupOps[FirstSweep - 1] == Bias
    ensures forall i, j :: (0 <= i < SetupLength && 0 <= j < SetupLength
              && SetupOps[i] == Start && SetupOps[j] == Stop) ==> i == 7 && j == 8
    ensures forall i, j :: (0 <= i < SetupLength && 0 <= j < SetupLength
              && SetupOps[i] == Nop && SetupOps[j] == Noa) ==> i == 13 && j == 14
  {
    forall i | 0 <= i < SetupLength
      ensures Group(SetupOps[i]) == (if i < FirstMeasurement then 0 else if i < FirstSweep then 1 else 2)
      ensures SetupOps[i] == Start ==> i == 7
      ensures SetupOps[i] == Stop ==> i == 8
      ensures SetupOps[i] == Nop ==> i == 13
      ensures SetupOps[i] == Noa ==> i == 14
    {
    }
  }

  /** The i-th setup line is the i-th mnemonic with its configured value, if any. */
  lemma SetupLine(cfg: Config, i: nat)
    requires i < SetupLength
    ensures SetupCommands(cfg)[i] == Render(Command(SetupOps[i], Setting(cfg, SetupOps[i])))
  {
  }

  /** The parameter line at position `i`: its mnemonic text, then the
      configured value in decimal. */
  predicate ParameterWritten(cfg: Config, i: nat, text: string, value: int)
    requires i < SetupLength
  {
    SetupCommands(cfg)[i] == text + IntToString(value)
  }

  // One lemma per parameter line, in the order the script writes them.

  lemma AddrLine(cfg: Config)
    ensures ParameterWritten(cfg, 2, "++addr ", cfg.gpibAddress)
  {
    SetupLine(cfg, 2);
  }

  lemma StartLine(cfg: Config)
    ensures ParameterWritten(cfg, 7, "START=", cfg.startFrequency)
  {
    SetupLine(cfg, 7);
  }

  lemma StopLine(cfg: Config)
    ensures ParameterWritten(cfg, 8, "STOP=", cfg.stopFrequency)
  {
    SetupLine(cfg, 8);
  }

  lemma AMinLine(cfg: Config)
    ensures ParameterWritten(cfg, 9, "AMIN=", cfg.displayRangeA.lo)
  {
    SetupLine(cfg, 9);
  }

  lemma AMaxLine(cfg: Config)
    ensures ParameterWritten(cfg, 10, "AMAX=", cfg.displayRangeA.hi)
  {
    SetupLine(cfg, 10);
  }

  lemma BMinLine(cfg: Config)
    ensures ParameterWritten(cfg, 11, "BMIN=", cfg.displayRangeB.lo)
  {
    SetupLine(cfg, 11);
  }

  lemma BMaxLine(cfg: Config)
    ensures ParameterWritten(cfg, 12, "BMAX=", cfg.displayRangeB.hi)
  {
    SetupLine(cfg, 12);
  }

  lemma NopLine(cfg: Config)
    ensures ParameterWritten(cfg, 13, "NOP=", cfg.numberOfPoints)
  {
    SetupLine(cfg, 13);
  }

  lemma NoaLine(cfg: Config)
    ensures ParameterWritten(cfg, 14, "NOA=", cfg.numberOfAverages)
  {
    SetupLine(cfg, 14);
  }

  lemma BiasLine(cfg: Config)
    ensures ParameterWritten(cfg, 17, "BIAS=", cfg.biasVoltage)
  {
    SetupLine(cfg, 17);
  }

  /** Lines 58-64 around the address: controller mode, read-after-write,
      device clear and the version query. */
  lemma ControllerLinesWritten(cfg: Config)
    ensures var s := SetupCommands(cfg);
      s[0] == "++mode 1" && s[1] == "++auto 1" && s[3] == "++clr" && s[4] == "++ver"
  {
    SetupLine(cfg, 0);
    SetupLine(cfg, 1);
    SetupLine(cfg, 3);
    SetupLine(cfg, 4);
  }

  /** Lines 67-68 and 77-78: R-X mode and medium integration time before the
      parameters, short and open compensation before the bias. */
  lemma FixedMeasurementLines(cfg: Config)
    ensures var s := SetupCommands(cfg);
      s[5] == "IMP2" && s[6] == "ITM2" && s[15] == "SHT1" && s[16] == "OPN1"
  {
    SetupLine(cfg, 5);
    SetupLine(cfg, 6);
    SetupLine(cfg, 15);
    SetupLine(cfg, 16);
  }

  /** Lines 81-84: service request enable, single sweep mode, the trigger and
      the on-screen comment, in that order. */
  lemma SweepLinesWritten(cfg: Config)
    ensures SetupCommands(cfg)[FirstSweep..] == ["RQS2", "SWM2", "SWTRG", "CMT\"Acquiring sweep\""]
  {
    SetupLine(cfg, 18);
    SetupLine(cfg, 19);
    SetupLine(cfg, 20);
    SetupLine(cfg, 21);
  }
}

=== FILE: decimal.dfy ===
/**
  Decimal rendering of integers, as Python's `'%d' % n` and `f'{n}'` write
  them into the instrument commands, together with the matching parser.
  The parser is the partner of the renderer: the two round-trip in both
  directions on canonical decimal strings.
 */
module Decimal {
  import opened Wrappers

  predicate IsDigit(c: char) {
    '0' <= c <= '9'
  }

  predicate AllDigits(s: string) {
    forall i :: 0 <= i < |s| ==> IsDigit(s[i])
  }

  /** A non-negative decimal numeral without superfluous leading zeros. */
  predicate Canonical(s: string) {
    |s| >= 1 && AllDigits(s) && (|s| > 1 ==> s[0] != '0')
  }

  function DigitChar(d: nat): (c: char)
    requires d < 10
    ensures IsDigit(c)
  {
    ('0' as int + d) as char
  }

  function DigitValue(c: char): (d: nat)
    requires IsDigit(c)
    ensures d < 10 && DigitChar(d) == c
  {
    c as int - '0' as int
  }

  /** The digits of `n`, most significant first. */
  function NatToString(n: nat): (s: string)
    ensures Canonical(s)
    ensures s[0] == '0' <==> n == 0
    ensures |s| == 1 <==> n < 10
    decreases n
  {
    if n < 10 then [DigitChar(n)] else NatToString(n / 10) + [DigitChar(n % 10)]
  }

  /** The value of a digit string; the empty string reads as 0. */
  function ParseNat(s: string): nat
    requires AllDigits(s)
  {
    if s == [] then 0 else ParseNat(s[..|s| - 1]) * 10 + DigitValue(s[|s| - 1])
  }

  /** Python's `str(n)` for an `int`: a minus sign before the magnitude when negative. */
  function IntToString(n: int): (s: string)
    ensures |s| >= 1
    ensures s[0] == '-' <==> n < 0
    ensures n >= 0 ==> Canonical(s)
    ensures n < 0 ==> Canonical(s[1..])
  {
    if n < 0 then "-" + NatToString(-n) else NatToString(n)
  }

  /** Reads an optional minus sign followed by at least one digit. */
  function ParseInt(s: string): (r: Option<int>)
    ensures r.Some? <==> (AllDigits(s) && |s| >= 1) || (|s| >= 2 && s[0] == '-' && AllDigits(s[1..]))
  {
    if |s| >= 1 && s[0] == '-' then
      if |s| >= 2 && AllDigits(s[1..]) then Some(0 - ParseNat(s[1..]) as int) else None
    else if |s| >= 1 && AllDigits(s) then Some(ParseNat(s) as int)
    else None
  }

  lemma {:induction false} ParseNatOfNatToString(n: nat)
    ensures ParseNat(NatToString(n)) == n
    decreases n
  {
    if n >= 10 {
      var s := NatToString(n / 10);
      ParseNatOfNatToString(n / 10);
      var t := s + [DigitChar(n % 10)];
      assert t[..|t| - 1] == s;
    }
  }

  lemma {:induction false} ParseNatPositive(s: string)
    requires Canonical(s) && s[0] != '0'
    ensures ParseNat(s) >= 1
    decreases |s|
  {
    if |s| > 1 {
      var p := s[..|s| - 1];
      ParseNatPositive(p);
    }
  }

  /** Every canonical numeral is the rendering of the value it denotes. */
  lemma {:induction false} NatToStringOfParseNat(s: string)
    requires Canonical(s)
    ensures NatToString(ParseNat(s)) == s
    decreases |s|
  {
    if |s| > 1 {
      var p := s[..|s| - 1];
      var d := DigitValue(s[|s| - 1]);
      ParseNatPositive(p);
      NatToStringOfParseNat(p);
      var n := ParseNat(s);
      assert n == ParseNat(p) * 10 + d;
      assert n / 10 == ParseNat(p) && n % 10 == d;
      assert s == p + [s[|s| - 1]];
    }
  }

  /** Rendering then parsing gives the integer back, so the rendering loses nothing. */
  lemma IntRoundTrip(n: int)
    ensures ParseInt(IntToString(n)) == Some(n)
  {
    if n < 0 {
      ParseNatOfNatToString(-n);
      assert IntToString(n)[1..] == NatToString(-n);
    } else {
      ParseNatOfNatToString(n);
    }
  }

  /** Distinct integers render as distinct strings. */
  lemma IntToStringInjective(m: int, n: int)
    ensures IntToString(m) == IntToString(n) <==> m == n
  {
    IntRoundTrip(m);
    IntRoundTrip(n);
  }
}

=== FILE: filenames.dfy ===
/**
  Output file names (hp4194a.py lines 129, 164-170 and 178-184): the default
  name derived from an ISO 8601 timestamp, the choice between the command-line
  argument, the typed answer and the default, the `.mat` extension
  normalisation, and the stem shown in the instrument's save comment.
 */
module Filenames {
  import opened Wrappers
  import opened Decimal

  const Extension: string := ".mat"

  predicate EndsWith(s: string, suffix: string) {
    |suffix| <= |s| && s[|s| - |suffix|..] == suffix
  }

  /** Appends `.mat` unless the name already ends with it. */
  function NormaliseExtension(name: string): (r: string)
    ensures EndsWith(r, Extension)
    ensures |name| <= |r| && r[..|name|] == name
    ensures EndsWith(name, Extension) <==> r == name
    ensures !EndsWith(name, Extension) ==> |r| == |name| + |Extension|
  {
    if EndsWith(name, Extension) then name
    else
      var r := name + Extension;
      assert r[|r| - |Extension|..] == Extension;
      r
  }

  /** Normalising twice is normalising once. */
  lemma NormaliseIdempotent(name: string)
    ensures NormaliseExtension(NormaliseExtension(name)) == NormaliseExtension(name)
  {
  }

  /** Python's `filename[:-4]`: all but the last four characters, or nothing
      when the name is shorter. */
  function Stem(filename: string): (r: string)
    ensures |filename| >= 4 ==> |r| == |filename| - 4 && r == filename[..|r|]
    ensures |filename| < 4 ==> r == []
  {
    if |filename| >= 4 then filename[..|filename| - 4] else []
  }

  /** The stem of a normalised name is the name without its extension, so
      putting the extension back gives the name again; for a name typed
      without the extension the stem is the name as typed. */
  lemma StemOfNormalised(name: string)
    ensures Stem(NormaliseExtension(name)) + Extension == NormaliseExtension(name)
    ensures !EndsWith(name, Extension) ==> Stem(NormaliseExtension(name)) == name
  {
  }

  /** `os.path.basename` as `posixpath` computes it: the part after the last
      `/`, the whole path when it has none. */
  function Basename(path: string): (b: string)
    ensures '/' !in b && |b| <= |path|
  {
    if path == [] then []
    else if path[|path| - 1] == '/' then []
    else Basename(path[..|path| - 1]) + [path[|path| - 1]]
  }

  /** The base name is the longest slash-free suffix of the path: it ends the
      path, and a `/` stands just before it unless it is the whole path. */
  lemma {:induction false} BasenameIsLastComponent(path: string)
    ensures var b := Basename(path);
      path[|path| - |b|..] == b && (|b| < |path| ==> path[|path| - |b| - 1] == '/')
    decreases |path|
  {
    if path != [] && path[|path| - 1] != '/' {
      var init := path[..|path| - 1];
      BasenameIsLastComponent(init);
      assert path == init + [path[|path| - 1]];
    }
  }

  /** A path without `/` is its own base name. */
  lemma {:induction false} BasenameOfSlashFree(path: string)
    ensures '/' !in path ==> Basename(path) == path
    decreases |path|
  {
    if path != [] && '/' !in path {
      var init := path[..|path| - 1];
      assert '/' !in init by {
        forall i | 0 <= i < |init| ensures init[i] != '/' {
          assert init[i] == path[i];
        }
      }
      BasenameOfSlashFree(init);
      assert path == init + [path[|path| - 1]];
    }
  }

  /** The text of the save comment before the name it shows. */
  const SavedPrefix: string := "CMT\"Saved as "

  /** The comment written to the instrument's display after a save: the base
      name of the file name without its last four characters, in quotes. */
  function SavedComment(filename: string): string {
    SavedPrefix + Basename(Stem(filename)) + "\""
  }

  /** The save comment shows, in quotes, the part of the stem after its last
      `/`: a slash-free end of the stem, preceded there by a `/` unless it is
      the whole stem. */
  lemma SavedCommentShows(filename: string)
    ensures var s := SavedComment(filename);
      |s| > |SavedPrefix| && s[..|SavedPrefix|] == SavedPrefix && s[|s| - 1] == '"'
    ensures var s := SavedComment(filename);
      var shown := s[|SavedPrefix|..|s| - 1];
      '/' !in shown && EndsWith(Stem(filename), shown)
    ensures var s, stem := SavedComment(filename), Stem(filename);
      var shown := s[|SavedPrefix|..|s| - 1];
      |shown| < |stem| ==> stem[|stem| - |shown| - 1] == '/'
    ensures '/' !in Stem(filename) ==> SavedComment(filename) == SavedPrefix + Stem(filename) + "\""
  {
    var stem := Stem(filename);
    var shown := Basename(stem);
    BasenameIsLastComponent(stem);
    BasenameOfSlashFree(stem);
    var s := SavedComment(filename);
    assert s[..|SavedPrefix|] == SavedPrefix;
    assert s[|SavedPrefix|..|s| - 1] == shown;
  }

  /** Removes every occurrence of `c`, as `str.replace(c, '')` does. */
  function RemoveChar(s: string, c: char): (r: string)
    ensures c !in r
    ensures |r| <= |s|
  {
    if s == [] then []
    else (if s[0] == c then [] else [s[0]]) + RemoveChar(s[1..], c)
  }

  /** Removing `c` keeps every other character that occurs, and adds none. */
  lemma {:induction false} RemoveCharKeeps(s: string, c: char, x: char)
    requires x != c
    ensures x in RemoveChar(s, c) <==> x in s
    decreases |s|
  {
    if s != [] {
      RemoveCharKeeps(s[1..], c, x);
      assert s == [s[0]] + s[1..];
    }
  }

  /** The text before the first `c`, as `s.split(c)[0]` gives it. */
  function BeforeFirst(s: string, c: char): (r: string)
    ensures c !in r
    ensures |r| <= |s| && r == s[..|r|]
    ensures |r| < |s| ==> s[|r|] == c
  {
    if s == [] then []
    else if s[0] == c then []
    else [s[0]] + BeforeFirst(s[1..], c)
  }

  /** The default file name for the timestamp `iso` (as `isoformat()` writes it):
      the dashes and colons removed, then everything from the first `.` on. */
  function DefaultFilename(iso: string): (r: string)
    ensures '-' !in r && ':' !in r && '.' !in r
  {
    var undashed := RemoveChar(iso, '-');
    RemoveCharKeeps(undashed, ':', '-');
    BeforeFirst(RemoveChar(undashed, ':'), '.')
  }

  lemma {:induction false} BeforeFirstRemoveChar(s: string, c: char, d: char)
    requires c != d
    ensures BeforeFirst(RemoveChar(s, c), d) == RemoveChar(BeforeFirst(s, d), c)
    decreases |s|
  {
    if s != [] {
      BeforeFirstRemoveChar(s[1..], c, d);
      if s[0] == c {
        assert RemoveChar(s, c) == RemoveChar(s[1..], c);
        assert BeforeFirst(s, d) == [s[0]] + BeforeFirst(s[1..], d);
        assert ([s[0]] + BeforeFirst(s[1..], d))[1..] == BeforeFirst(s[1..], d);
      } else if s[0] == d {
        assert RemoveChar(s, c) == [s[0]] + RemoveChar(s[1..], c);
      } else {
        assert RemoveChar(s, c) == [s[0]] + RemoveChar(s[1..], c);
        assert ([s[0]] + RemoveChar(s[1..], c))[1..] == RemoveChar(s[1..], c);
        assert ([s[0]] + BeforeFirst(s[1..], d))[1..] == BeforeFirst(s[1..], d);
      }
    }
  }

  /** The default name is the part of the timestamp before its first `.`,
      with the dashes and colons taken out. */
  lemma DefaultFilenameIsDatePart(iso: string)
    ensures DefaultFilename(iso) == RemoveChar(RemoveChar(BeforeFirst(iso, '.'), '-'), ':')
  {
    BeforeFirstRemoveChar(iso, '-', '.');
    BeforeFirstRemoveChar(RemoveChar(iso, '-'), ':', '.');
  }

  /** `datetime.isoformat()` of a naive time: `YYYY-MM-DDTHH:MM:SS`, followed by
      `.ffffff` unless the microseconds are zero. */
  predicate IsIsoTimestamp(iso: string) {
    && (|iso| == 19 || (|iso| == 26 && iso[19] == '.' && forall i :: 20 <= i < 26 ==> IsDigit(iso[i])))
    && (forall i :: 0 <= i < 19 && i !in {4, 7, 10, 13, 16} ==> IsDigit(iso[i]))
    && iso[4] == '-' && iso[7] == '-' && iso[10] == 'T' && iso[13] == ':' && iso[16] == ':'
  }

  /** Concatenation regrouped; a separate lemma keeps the step below cheap. */
  lemma AppendAssociative(x: string, y: string, z: string)
    ensures x + (y + z) == (x + y) + z
  {
  }

  lemma {:induction false} RemoveCharAppend(a: string, b: string, c: char)
    ensures RemoveChar(a + b, c) == RemoveChar(a, c) + RemoveChar(b, c)
    decreases |a|
  {
    if a == [] {
      assert a + b == b;
    } else {
      var head := if a[0] == c then [] else [a[0]];
      RemoveCharAppend(a[1..], b, c);
      var ab := a + b;
      assert ab[0] == a[0] && ab[1..] == a[1..] + b;
      assert RemoveChar(ab, c) == head + RemoveChar(ab[1..], c);
      assert RemoveChar(a, c) == head + RemoveChar(a[1..], c);
      AppendAssociative(head, RemoveChar(a[1..], c), RemoveChar(b, c));
    }
  }

  lemma {:induction false} RemoveCharAbsent(s: string, c: char)
    requires c !in s
    ensures RemoveChar(s, c) == s
    decreases |s|
  {
    if s != [] {
      RemoveCharAbsent(s[1..], c);
    }
  }

  /** Removing `c` after a piece without `c` and one `c` keeps the piece and drops the `c`. */
  lemma RemoveAfterPiece(x: string, rest: string, c: char)
    requires c !in x
    ensures RemoveChar(x + [c] + rest, c) == x + RemoveChar(rest, c)
  {
    RemoveCharAppend(x + [c], rest, c);
    RemoveCharAppend(x, [c], c);
    RemoveCharAbsent(x, c);
    assert RemoveChar([c], c) == [];
    assert x + [] == x;
  }

  /** Removing a separator that occurs exactly twice joins the three pieces. */
  lemma RemoveSeparators(x: string, y: string, z: string, c: char)
    requires c !in x && c !in y && c !in z
    ensures RemoveChar(x + [c] + y + [c] + z, c) == x + y + z
  {
    assert x + [c] + y + [c] + z == x + [c] + (y + [c] + z);
    RemoveAfterPiece(x, y + [c] + z, c);
    RemoveAfterPiece(y, z, c);
    RemoveCharAbsent(z, c);
    assert x + (y + z) == x + y + z;
  }

  lemma BeforeFirstAt(s: string, c: char, k: nat)
    requires k <= |s| && c !in s[..k] && (k == |s| || s[k] == c)
    ensures BeforeFirst(s, c) == s[..k]
  {
  }

  /** Where the separators of a timestamp's date and time stand. */
  lemma IsoSeparators(iso: string)
    requires IsIsoTimestamp(iso)
    ensures forall i :: 0 <= i < 19 ==> iso[i] != '.'
    ensures forall i :: 0 <= i < 19 && iso[i] == '-' ==> i == 4 || i == 7
    ensures forall i :: 0 <= i < 19 && iso[i] == ':' ==> i == 13 || i == 16
  {
  }

  lemma NotInSlice(s: string, lo: nat, hi: nat, c: char)
    requires lo <= hi <= |s| && forall i :: lo <= i < hi ==> s[i] != c
    ensures c !in s[lo..hi]
  {
  }

  /** The date and time of a timestamp, cut at its separators. */
  lemma IsoPieces(iso: string)
    requires IsIsoTimestamp(iso)
    ensures iso[..19] == iso[0..4] + "-" + iso[5..7] + "-" + (iso[8..13] + ":" + iso[14..16] + ":" + iso[17..19])
  {
  }

  /** The date and time of a timestamp with the dashes removed. */
  lemma IsoWithoutDashes(iso: string)
    requires IsIsoTimestamp(iso)
    ensures RemoveChar(iso[..19], '-') == iso[0..4] + iso[5..7] + iso[8..13] + ":" + iso[14..16] + ":" + iso[17..19]
  {
    var p1, p2, p3, p4, p5 := iso[0..4], iso[5..7], iso[8..13], iso[14..16], iso[17..19];
    IsoSeparators(iso);
    NotInSlice(iso, 0, 4, '-');
    NotInSlice(iso, 5, 7, '-');
    NotInSlice(iso, 8, 13, '-');
    NotInSlice(iso, 14, 16, '-');
    NotInSlice(iso, 17, 19, '-');
    var time := p3 + ":" + p4 + ":" + p5;
    IsoPieces(iso);
    RemoveSeparators(p1, p2, time, '-');
    assert p1 + p2 + time == p1 + p2 + p3 + ":" + p4 + ":" + p5;
  }

  /** The date and time of a timestamp with the dashes and the colons removed. */
  lemma IsoWithoutSeparators(iso: string)
    requires IsIsoTimestamp(iso)
    ensures RemoveChar(RemoveChar(iso[..19], '-'), ':') == iso[0..4] + iso[5..7] + iso[8..13] + iso[14..16] + iso[17..19]
  {
    var p1, p2, p3, p4, p5 := iso[0..4], iso[5..7], iso[8..13], iso[14..16], iso[17..19];
    IsoSeparators(iso);
    NotInSlice(iso, 0, 4, ':');
    NotInSlice(iso, 5, 7, ':');
    NotInSlice(iso, 8, 13, ':');
    NotInSlice(iso, 14, 16, ':');
    NotInSlice(iso, 17, 19, ':');
    IsoWithoutDashes(iso);
    var date := p1 + p2 + p3;
    assert ':' !in date;
    assert p1 + p2 + p3 + ":" + p4 + ":" + p5 == date + [':'] + p4 + [':'] + p5;
    RemoveSeparators(date, p4, p5, ':');
  }

  lemma DefaultFilenamePieces(iso: string)
    requires IsIsoTimestamp(iso)
    ensures DefaultFilename(iso) == iso[0..4] + iso[5..7] + iso[8..13] + iso[14..16] + iso[17..19]
  {
    IsoSeparators(iso);
    NotInSlice(iso, 0, 19, '.');
    assert iso[0..19] == iso[..19];
    BeforeFirstAt(iso, '.', 19);
    DefaultFilenameIsDatePart(iso);
    IsoWithoutSeparators(iso);
  }

  /** For a timestamp as `isoformat()` writes it, the default name has the
      documented `YYYYMMDDTHHMMSS` form: the date and time digits in order,
      with the `T` kept and the fraction of a second dropped. */
  lemma DefaultFilenameFormat(iso: string)
    requires IsIsoTimestamp(iso)
    ensures DefaultFilename(iso) == iso[0..4] + iso[5..7] + iso[8..13] + iso[14..16] + iso[17..19]
    ensures var r := DefaultFilename(iso);
      |r| == 15 && r[8] == 'T' && forall i :: 0 <= i < 15 && i != 8 ==> IsDigit(r[i])
  {
    DefaultFilenamePieces(iso);
    var r := DefaultFilename(iso);
    forall i | 0 <= i < 15 && i != 8 ensures IsDigit(r[i]) {
      var j := if i < 4 then i else if i < 6 then i + 1 else if i < 11 then i + 2 else if i < 13 then i + 3 else i + 4;
      assert r[i] == iso[j];
    }
  }

  /** The name the script saves to: the command-line argument if one was given,
      else the typed answer, else the default for the timestamp; then normalised. */
  function ChooseFilename(argument: Option<string>, typed: string, iso: string): (r: string)
    ensures EndsWith(r, Extension)
  {
    var chosen :=
      if argument.Some? && argument.value != [] then argument.value
      else if typed != [] then typed
      else DefaultFilename(iso);
    NormaliseExtension(chosen)
  }

  /** With no argument, or an empty one, and an empty answer the default gets
      exactly one `.mat`, which the stem for the save comment takes off again. */
  lemma DefaultChoice(argument: Option<string>, iso: string)
    requires argument.None? || argument.value == []
    ensures ChooseFilename(argument, [], iso) == DefaultFilename(iso) + Extension
    ensures Stem(ChooseFilename(argument, [], iso)) == DefaultFilename(iso)
  {
    var d := DefaultFilename(iso);
    assert !EndsWith(d, Extension) by {
      if |Extension| <= |d| {
        assert d[|d| - 4..][0] == d[|d| - 4] != '.';
      }
    }
    StemOfNormalised(d);
  }

  /** For a timestamp as `isoformat()` writes it, the save comment after the
      default choice shows the default name itself: it holds no `/` for
      `basename` to cut at. */
  lemma DefaultComment(argument: Option<string>, iso: string)
    requires argument.None? || argument.value == []
    requires IsIsoTimestamp(iso)
    ensures SavedComment(ChooseFilename(argument, [], iso)) == SavedPrefix + DefaultFilename(iso) + "\""
  {
    DefaultChoice(argument, iso);
    DefaultFilenameFormat(iso);
    SavedCommentShows(ChooseFilename(argument, [], iso));
    var d := DefaultFilename(iso);
    assert '/' !in d by {
      forall i | 0 <= i < |d| ensures d[i] != '/' {
        if i != 8 {
          assert IsDigit(d[i]);
        }
      }
    }
  }

  /** A non-empty command-line argument is the name, whatever is typed and
      whenever the script runs; only the `.mat` extension may be added. */
  lemma ArgumentChoice(argument: string, typed1: string, iso1: string, typed2: string, iso2: string)
    requires argument != []
    ensures ChooseFilename(Some(argument), typed1, iso1) == NormaliseExtension(argument)
    ensures ChooseFilename(Some(argument), typed1, iso1) == ChooseFilename(Some(argument), typed2, iso2)
  {
  }

  /** Without an argument (or with an empty one) a non-empty typed answer is
      the name, whatever the timestamp; only the `.mat` extension may be added. */
  lemma TypedChoice(argument: Option<string>, typed: string, iso1: string, iso2: string)
    requires argument.None? || argument.value == []
    requires typed != []
    ensures ChooseFilename(argument, typed, iso1) == NormaliseExtension(typed)
    ensures ChooseFilename(argument, typed, iso1) == ChooseFilename(argument, typed, iso2)
  {
  }
}

=== FILE: poller.dfy ===
/**
  The sweep-completion poller (hp4194a.py lines 86-101). After triggering the
  sweep the script serial-polls the instrument until bit 0 of the status
  byte, "sweep in progress", reads clear. Each poll answer is abstracted into
  a `PollResponse`; a finite list of answers stands for what the instrument
  would return, and `StillPolling` is the outcome when the list runs out
  before the loop ends (the script itself has no bound).
 */
module Poller {
  import opened Decimal

  /** One stripped serial-poll answer: nothing, a decimal status byte, or
      something that does not parse as an integer. */
  datatype PollResponse = Empty | Int(n: nat) | Garbage

  /** How the loop ended: the sweep finished at answer `k`, the loop gave up
      at the unparseable answer `k`, or every answer kept it polling. */
  datatype PollOutcome = Done(k: nat) | Aborted(k: nat) | StillPolling

  /** Bit 0 of the status byte (`status_byte & 0x01` for a non-negative byte). */
  predicate InProgress(n: nat) {
    n % 2 == 1
  }

  /** An answer after which the loop asks again. */
  predicate KeepsPolling(r: PollResponse) {
    r.Empty? || (r.Int? && InProgress(r.n))
  }

  /** The abstraction of the stripped answer: empty, all ASCII digits, or anything else. */
  function Classify(polled: string): (r: PollResponse)
    ensures r.Empty? <==> polled == []
    ensures r.Int? <==> polled != [] && AllDigits(polled)
    ensures r.Int? ==> r.n == ParseNat(polled)
  {
    if polled == [] then Empty
    else if AllDigits(polled) then Int(ParseNat(polled))
    else Garbage
  }

  /** The loop from answer `i` on; answers before `i` have all kept it polling. */
  function PollFrom(rs: seq<PollResponse>, i: nat): (o: PollOutcome)
    requires i <= |rs|
    ensures o.Done? || o.Aborted? ==> i <= o.k < |rs|
    ensures o.Done? ==> rs[o.k].Int? && !InProgress(rs[o.k].n)
    ensures o.Aborted? ==> rs[o.k] == Garbage
    decreases |rs| - i
  {
    if i == |rs| then StillPolling
    else match rs[i]
      case Empty => PollFrom(rs, i + 1)
      case Garbage => Aborted(i)
      case Int(n) => if InProgress(n) then PollFrom(rs, i + 1) else Done(i)
  }

  /** The outcome of the poll loop over the answers `rs`, in order: done only
      at a status byte with bit 0 clear, aborted only at an unparseable answer. */
  function Poll(rs: seq<PollResponse>): (o: PollOutcome)
    ensures o.Done? || o.Aborted? ==> o.k < |rs|
    ensures o.Done? ==> rs[o.k].Int? && !InProgress(rs[o.k].n)
    ensures o.Aborted? ==> rs[o.k] == Garbage
  {
    PollFrom(rs, 0)
  }

  /** The number of answers the loop reads (one `++spoll` request each): every
      answer up to and including the one that ended it, or all of them while
      it has not ended. */
  function Consumed(o: PollOutcome, available: nat): (c: nat)
    requires (o.Done? || o.Aborted?) ==> o.k < available
    ensures c <= available
    ensures o.StillPolling? ==> c == available
    ensures (o.Done? || o.Aborted?) ==> c == o.k + 1
  {
    match o
    case Done(k) => k + 1
    case Aborted(k) => k + 1
    case StillPolling => available
  }

  /** The loop as the script writes it: a `while not sweep_finished` loop with a
      `break` on an unparseable answer; it reports whether the sweep finished
      and how many answers it read. */
  method PollLoop(rs: seq<PollResponse>) returns (finished: bool, consumed: nat)
    ensures consumed <= |rs|
    ensures finished <==> Poll(rs).Done?
    ensures consumed == Consumed(Poll(rs), |rs|)
  {
    finished := false;
    consumed := 0;
    while !finished && consumed < |rs|
      invariant consumed <= |rs|
      invariant !finished ==> Poll(rs) == PollFrom(rs, consumed)
      invariant finished ==> 1 <= consumed && Poll(rs) == Done(consumed - 1)
      decreases |rs| - consumed
    {
      var polled := rs[consumed];
      consumed := consumed + 1;
      match polled
      case Empty =>
      case Garbage =>
        break;
      case Int(status) =>
        finished := !InProgress(status);
    }
  }

  /** Every answer in `rs[lo..hi]` keeps the loop polling. */
  ghost predicate AllKeepPolling(rs: seq<PollResponse>, lo: nat, hi: nat)
    requires lo <= hi <= |rs|
  {
    forall j :: lo <= j < hi ==> KeepsPolling(rs[j])
  }

  /** The loop from `i` ends exactly at the first answer that does not keep it polling. */
  lemma {:induction false} PollFromSpec(rs: seq<PollResponse>, i: nat)
    requires i <= |rs|
    ensures PollFrom(rs, i).Done? || PollFrom(rs, i).Aborted? ==> AllKeepPolling(rs, i, PollFrom(rs, i).k)
    ensures PollFrom(rs, i) == StillPolling <==> AllKeepPolling(rs, i, |rs|)
    decreases |rs| - i
  {
    if i < |rs| {
      PollFromSpec(rs, i + 1);
    }
  }

  /** The loop reaches `Done(k)` exactly when answer `k` is a status byte with
      bit 0 clear and every earlier answer was empty or had bit 0 set. */
  lemma PollDoneIff(rs: seq<PollResponse>, k: nat)
    ensures Poll(rs) == Done(k) <==>
      k < |rs| && rs[k].Int? && !InProgress(rs[k].n) && AllKeepPolling(rs, 0, k)
  {
    PollFromSpec(rs, 0);
    if k < |rs| && rs[k].Int? && !InProgress(rs[k].n) && AllKeepPolling(rs, 0, k) {
      FirstStop(rs, k);
    }
  }

  /** The loop aborts at `k` exactly when answer `k` is unparseable and every
      earlier answer kept it polling. */
  lemma PollAbortedIff(rs: seq<PollResponse>, k: nat)
    ensures Poll(rs) == Aborted(k) <==>
      k < |rs| && rs[k] == Garbage && AllKeepPolling(rs, 0, k)
  {
    PollFromSpec(rs, 0);
    if k < |rs| && rs[k] == Garbage && AllKeepPolling(rs, 0, k) {
      FirstStop(rs, k);
    }
  }

  /** The loop needs more answers exactly when every answer kept it polling. */
  lemma PollStillIff(rs: seq<PollResponse>)
    ensures Poll(rs) == StillPolling <==> AllKeepPolling(rs, 0, |rs|)
  {
    PollFromSpec(rs, 0);
  }

  /** The loop stops at the first answer that does not keep it polling. */
  lemma FirstStop(rs: seq<PollResponse>, k: nat)
    requires k < |rs| && !KeepsPolling(rs[k]) && AllKeepPolling(rs, 0, k)
    ensures Poll(rs).Done? || Poll(rs).Aborted?
    ensures Poll(rs).k == k
  {
    PollFromSpec(rs, 0);
    assert !AllKeepPolling(rs, 0, |rs|) by {
      assert !KeepsPolling(rs[k]);
    }
    var o := Poll(rs);
    assert !KeepsPolling(rs[o.k]);
  }

  /** The loop's outcome over `rs + more`: the outcome over `rs` when the loop
      ended within `rs`, otherwise the outcome over `more`, shifted by `|rs|`. */
  function Continue(first: PollOutcome, offset: nat, next: PollOutcome): PollOutcome {
    match first
    case StillPolling =>
      (match next
       case Done(k) => Done(offset + k)
       case Aborted(k) => Aborted(offset + k)
       case StillPolling => StillPolling)
    case _ => first
  }

  lemma {:induction false} PollFromAppend(rs: seq<PollResponse>, more: seq<PollResponse>, i: nat)
    requires i <= |rs|
    ensures PollFrom(rs + more, i) == Continue(PollFrom(rs, i), |rs|, PollFrom(more, 0))
    decreases |rs| - i
  {
    if i < |rs| {
      assert (rs + more)[i] == rs[i];
      PollFromAppend(rs, more, i + 1);
    } else {
      PollFromShift(rs, more, 0);
    }
  }

  lemma {:induction false} PollFromShift(rs: seq<PollResponse>, more: seq<PollResponse>, j: nat)
    requires j <= |more|
    ensures PollFrom(rs + more, |rs| + j) == Continue(StillPolling, |rs|, PollFrom(more, j))
    decreases |more| - j
  {
    if j < |more| {
      assert (rs + more)[|rs| + j] == more[j];
      PollFromShift(rs, more, j + 1);
    }
  }

  /** Polling is sequential: once the loop has ended, later answers are never
      looked at; while it has not, the rest of the answers decide. */
  lemma PollAppend(rs: seq<PollResponse>, more: seq<PollResponse>)
    ensures Poll(rs + more) == Continue(Poll(rs), |rs|, Poll(more))
  {
    PollFromAppend(rs, more, 0);
  }

  /** An unparseable answer ends the loop at once without finishing the sweep,
      whatever answers follow it. */
  lemma GarbageAborts(rs: seq<PollResponse>, more: seq<PollResponse>)
    requires Poll(rs) == StillPolling
    ensures Poll(rs + [Garbage] + more) == Aborted(|rs|)
  {
    PollAppend(rs, [Garbage] + more);
    assert rs + [Garbage] + more == rs + ([Garbage] + more);
  }

  /** The outcome after inserting an answer at position `i`: the same ending,
      one position later when it was at or after `i`. */
  function Shifted(o: PollOutcome, i: nat): PollOutcome {
    match o
    case Done(k) => if k < i then o else Done(k + 1)
    case Aborted(k) => if k < i then o else Aborted(k + 1)
    case StillPolling => StillPolling
  }

  /** An empty answer neither changes the state nor ends the loop: inserting
      one anywhere only delays the outcome. */
  lemma EmptyIsSkipped(rs: seq<PollResponse>, i: nat)
    requires i <= |rs|
    ensures Poll(rs[..i] + [Empty] + rs[i..]) == Shifted(Poll(rs), i)
  {
    var pre, post := rs[..i], rs[i..];
    assert rs == pre + post;
    PollAppend(pre, post);
    PollAppend(pre, [Empty] + post);
    PollAppend([Empty], post);
    assert pre + [Empty] + post == pre + ([Empty] + post);
  }

  /** The status byte 3 (bit 0 set) keeps the loop polling; 2 (bit 0 clear) ends it. */
  lemma StatusExamples()
    ensures Poll([Classify("3"), Classify("2")]) == Done(1)
    ensures Poll([Classify("3"), Classify(""), Classify("3")]) == StillPolling
    ensures Poll([Classify("abc"), Classify("2")]) == Aborted(0)
  {
  }

  /** A decimal status byte as the instrument prints it is read back as that byte. */
  lemma ClassifyStatus(n: nat)
    ensures Classify(NatToString(n)) == Int(n)
  {
    ParseNatOfNatToString(n);
  }
}

=== FILE: wrappers.dfy ===
/** The optional-value datatype used by the decoders of this model. */
module Wrappers {

  /** Either no value, or a value. */
  datatype Option<+T> = None | Some(value: T)
}
